=== FILE: README.md ===
# TJ-Bot free command and file sharing, modelled in Dafny

This project models two parts of TJ-Bot, a Discord bot written in Java.

**The `/free` command (`FreeCommand`).** The bot watches a configured set of help
channels. A human's message in a free monitored channel makes the channel busy, with the
author as its occupant. `/free` in a busy monitored channel makes it free again. After
each change the bot republishes a status summary in the guild's status channel. It edits
the existing status message when that message is still the channel's latest. It deletes
the message and sends a new one when newer messages exist. It sends a new one when there
is no status message. The bot caches the id of each status channel's status message.
The cache has three states:

- **Unknown**: the channel was never looked up. The first lookup scans the 100 most
  recent messages for the bot's own embed.
- **Absent**: the channel was looked up and has no status message.
- **Present(id)**: the channel's status message has this id.

**File sharing (`FileSharingMessageListener`).** A human's message in a help thread that
carries code or text attachments is uploaded to a gist. A help thread is a public thread
whose parent channel matches the staging or overview pattern. The model covers the
attachment filter, the file name each attachment gets in the gist, the gating of the
listener, and the status check on the gist response.

Each handler is a pure function. It takes a state, an event, and what the platform
reports: the status channel's latest message id, its history, and the id a send yields
when it succeeds. It returns the new state and the platform calls made, in order
(`Platform.Effect`).

Modules:

- `Optional`: Option and Result.
- `Platform`: identifiers, reply texts, the abstract status summary, history view, effects.
- `ChannelMonitor`: the channel monitor as the free command uses it.
- `StatusCache`: the three-state cache, the history scan, and `getStatusMessageIn`.
- `FreeCommand`: the guards, `displayStatus`, both handlers, a dispatcher, and invariants.
- `FileSharing`: the file-sharing listener.

Three details of the source the model keeps:

- The history scan takes the first message that has an embed and was written by the bot.
  It does not check the embed's title; that filter is commented out in the source.
- A cold lookup records what the scan found even when the send that follows fails. Only
  the cache update of the send itself waits for success.
- Message events are not gated on readiness. Only `/free` checks the ready flag. The
  source registers the message listener inside its ready handler and sets the flag at the
  end of it, so a message can meet a not-ready bot only while that handler is still
  running; the model allows it in any not-ready state.

The source of the channel monitor is not part of this model. The `ChannelMonitor` module
models it as far as it can be inferred from how `FreeCommand` calls it;
four points are assumptions about the unshown class:

- Assumption: a guild is monitored exactly when it has a status channel. `FreeCommand`
  shows only one direction: `/free` asks for the status channel right after the guild
  check passes, so a monitored guild has one. The converse is assumed; the message
  handler and `DisplayStatus` rely on it.
- Assumption: marking a busy channel busy again does nothing. `FreeCommand` never does
  this, because its busy check returns first; the handlers do not depend on it.
- Assumption: asking whether an unmonitored channel is busy is not allowed, which is why
  `IsChannelBusy` has a precondition. `FreeCommand` only asks after its channel check.
- Assumption: asking for the status channel of an unconfigured guild throws. So a message in a
  monitored channel of such a guild marks the channel busy but publishes and replies
  nothing.

## Model

| member | source | states |
|---|---|---|
| ChannelMonitor.IsMonitoringGuild | application/src/main/java/org/togetherjava/tjbot/commands/free/FreeCommand.java:165 | definition (assumed, see above): a guild is monitored exactly when a status channel is configured for it; the same query guards /free at :165 and the status builder at :223 |
| ChannelMonitor.IsMonitoringChannel | application/src/main/java/org/togetherjava/tjbot/commands/free/FreeCommand.java:173 | definition: a channel is monitored when the monitor holds a record for it; the same query guards /free at :173 and the message handler at :247 |
| ChannelMonitor.IsChannelBusy | application/src/main/java/org/togetherjava/tjbot/commands/free/FreeCommand.java:138 | definition: a monitored channel is busy when it has an occupant; its precondition (assumed, see above) is that the channel is monitored, which both call sites, :138 and :253, have already checked |
| ChannelMonitor.SetChannelBusy | application/src/main/java/org/togetherjava/tjbot/commands/free/FreeCommand.java:253-260 | the channel is busy afterwards; if it was already busy nothing changes, otherwise the author is its occupant; other channels and the configuration are untouched |
| ChannelMonitor.SetChannelFree | application/src/main/java/org/togetherjava/tjbot/commands/free/FreeCommand.java:138-141 | the channel is free afterwards, a free channel is left as it was, other channels and the configuration are untouched |
| ChannelMonitor.StatusChannelFor | application/src/main/java/org/togetherjava/tjbot/commands/free/FreeCommand.java:142 | a status channel is found exactly for monitored guilds, and it is the one configured for that guild; publishing and the message handler look the channel up through it |
| ChannelMonitor.StatusMessage | application/src/main/java/org/togetherjava/tjbot/commands/free/FreeCommand.java:229 | the summary is for the requested guild, lists exactly that guild's monitored channels, and gives each one its current occupant or none |
| ChannelMonitor.FirstOccupantWins | application/src/main/java/org/togetherjava/tjbot/commands/free/FreeCommand.java:253-260 | a second poster in a channel already marked busy does not displace the first occupant |
| ChannelMonitor.BusyThenFreeRestores | application/src/main/java/org/togetherjava/tjbot/commands/free/FreeCommand.java:136-143 | freeing a channel that a message made busy restores the monitor exactly |
| ChannelMonitor.FreeTwiceIsFreeOnce | application/src/main/java/org/togetherjava/tjbot/commands/free/FreeCommand.java:136-143 | on any monitored channel, busy or free, freeing twice gives the same monitor as freeing once |
| ChannelMonitor.StatusMessageListsGuildChannels | application/src/main/java/org/togetherjava/tjbot/commands/free/FreeCommand.java:222-230 | a guild's status lists exactly its monitored channels, busy ones with their occupant and free ones as free |
| ChannelMonitor.StatusMessageIsLocal | application/src/main/java/org/togetherjava/tjbot/commands/free/FreeCommand.java:222-230 | a guild's status depends only on that guild's monitored channels |
| ChannelMonitor.OccupancyChangeIsLocal | application/src/main/java/org/togetherjava/tjbot/commands/free/FreeCommand.java:259-261 | marking a channel busy or free leaves the status of every other guild unchanged |
| StatusCache.FirstCandidate | application/src/main/java/org/togetherjava/tjbot/commands/free/FreeCommand.java:285-289 | the index returned holds a message with an embed written by the bot and no earlier message qualifies; None exactly when no message qualifies |
| StatusCache.ScanForStatus | application/src/main/java/org/togetherjava/tjbot/commands/free/FreeCommand.java:283-290 | the result is the most recent qualifying message among the 100 most recent, and None exactly when none of those qualifies |
| StatusCache.FindExistingStatusMessage | application/src/main/java/org/togetherjava/tjbot/commands/free/FreeCommand.java:281-290 | the loop stopping at the first qualifying message computes the same answer as the scan's definition |
| StatusCache.FirstCandidateIsUnique | application/src/main/java/org/togetherjava/tjbot/commands/free/FreeCommand.java:285-289 | a qualifying message with none before it is the first match |
| StatusCache.GetStatusMessageIn | application/src/main/java/org/togetherjava/tjbot/commands/free/FreeCommand.java:266-298 | Absent answers none with no call; Present(id) fetches the message and answers it only if it still exists, cache unchanged; only Unknown scans, and the scan stores Present or Absent so the entry never returns to Unknown; any answer is a message that exists; other entries are untouched |
| FreeCommand.ShouldHandle | application/src/main/java/org/togetherjava/tjbot/commands/free/FreeCommand.java:157-181 | a command proceeds iff ready, guild monitored and channel monitored; otherwise the error is the first failing check in that order |
| FreeCommand.Publish | application/src/main/java/org/togetherjava/tjbot/commands/free/FreeCommand.java:199-215 | the status is edited iff the found message is the latest; a found stale message is deleted before the new send; the cache takes the new id only after a successful send and is otherwise unchanged |
| FreeCommand.DisplayStatus | application/src/main/java/org/togetherjava/tjbot/commands/free/FreeCommand.java:192-216 | publishing never changes channel state or readiness; an unconfigured guild makes no call, as the status builder throws for it; a configured one ends with a status write |
| FreeCommand.DisplayStatusReconciles | application/src/main/java/org/togetherjava/tjbot/commands/free/FreeCommand.java:192-216 | the last call writes the fresh status and nothing before it writes; only a message that is not the latest is deleted; history is scanned iff the entry was Unknown; the entry ends known; a successful send is remembered; an edit or a failed send leaves a known entry unchanged; other entries unchanged |
| FreeCommand.ScanRunsAtMostOnce | application/src/main/java/org/togetherjava/tjbot/commands/free/FreeCommand.java:266-298 | a second publish for the same guild never scans history again |
| FreeCommand.ColdCacheFindsAndEdits | application/src/main/java/org/togetherjava/tjbot/commands/free/FreeCommand.java:199-210 | after a restart the bot's latest status message is found by the scan, edited in place and cached, and the next publish edits it again without scanning |
| FreeCommand.StaleStatusIsReplaced | application/src/main/java/org/togetherjava/tjbot/commands/free/FreeCommand.java:201-207 | a cached status message that is no longer the latest is deleted and replaced, and the cache holds the replacement's id |
| FreeCommand.OnSlashCommand | application/src/main/java/org/togetherjava/tjbot/commands/free/FreeCommand.java:129-147 | the reply is an error iff a guard fails or the channel is free, and then it is the single call and nothing changes; otherwise the channel is free, other channels keep their state, the fresh guild status is written to its status channel and the reply is MARK_AS_FREE |
| FreeCommand.OnGuildMessage | application/src/main/java/org/togetherjava/tjbot/commands/free/FreeCommand.java:242-264 | the state is unchanged iff the message is from a bot or webhook, in an unmonitored channel or in a busy one, and then nothing is called; otherwise the author occupies the channel, others keep their state, and the status is republished and NEW_QUESTION replied exactly when the guild has a status channel |
| FreeCommand.Handle | application/src/main/java/org/togetherjava/tjbot/commands/free/FreeCommand.java:243-264 | whatever the event, readiness and configuration stay, only the event's own channel can change occupancy, and a message in a busy monitored channel changes nothing and calls nothing |
| FreeCommand.WrittenStatusShowsChange | application/src/main/java/org/togetherjava/tjbot/commands/free/FreeCommand.java:136-143 | for an event whose guild is its channel's guild, the status written after /free lists the channel as free, and the status written after a question lists the author as its occupant |
| FreeCommand.HandlePreservesValid | application/src/main/java/org/togetherjava/tjbot/commands/free/FreeCommand.java:199-215 | every event keeps readiness and configuration, changes at most the event's own channel, and keeps every cache entry on a status channel and never stores Unknown as a value |
| FreeCommand.IgnoredEventKeepsCache | application/src/main/java/org/togetherjava/tjbot/commands/free/FreeCommand.java:243-258 | a rejected or ignored event leaves the cache alone and makes no call other than an error reply |
| FreeCommand.HandleScansOnlyUnknown | application/src/main/java/org/togetherjava/tjbot/commands/free/FreeCommand.java:281-296 | an event scans a channel's history only while its entry is Unknown and leaves it known; a known entry stays known through every event |
| FreeCommand.HelpChannelScenario | application/src/main/java/org/togetherjava/tjbot/commands/free/FreeCommand.java:136-146 | a question lists the channel as busy with its author and replies NEW_QUESTION; /free lists it free and replies MARK_AS_FREE; a second /free is refused as already free with no change; /free in an unregistered channel is refused as not monitored |
| FileSharing.RelevantExtensions | application/src/main/java/org/togetherjava/tjbot/commands/filesharing/FileSharingMessageListener.java:46-47 | the filter holds thirteen extensions, and a relevant attachment renamed with its mapped extension is still relevant; what relevance excludes and which extension the gist uses are stated by `FileSharing.IsAttachmentRelevant` |
| FileSharing.IsAttachmentRelevant | application/src/main/java/org/togetherjava/tjbot/commands/filesharing/FileSharingMessageListener.java:101-107 | an attachment without an extension is never relevant, and a relevant attachment is uploaded with an extension of the filter other than txt and fxml |
| FileSharing.RelevantAttachments | application/src/main/java/org/togetherjava/tjbot/commands/filesharing/FileSharingMessageListener.java:80-84 | the result is a subsequence of the attachments in their order, holds only relevant ones, and holds every relevant one as often as the input |
| FileSharing.RelevantAttachmentsEmpty | application/src/main/java/org/togetherjava/tjbot/commands/filesharing/FileSharingMessageListener.java:80-88 | the relevant list is empty exactly when no attachment is relevant |
| FileSharing.IsHelpThread | application/src/main/java/org/togetherjava/tjbot/commands/filesharing/FileSharingMessageListener.java:215-224 | definition: a public thread whose parent's name matches the staging or the overview pattern; the gating property it takes part in is stated by `FileSharing.OnMessageReceived` |
| FileSharing.OnMessageReceived | application/src/main/java/org/togetherjava/tjbot/commands/filesharing/FileSharingMessageListener.java:69-88 | processing starts iff the author is human, the message is no webhook, the channel is a public thread whose parent matches the staging or overview pattern, and some attachment is relevant; the list processed is the relevant attachments |
| FileSharing.MapExtension | application/src/main/java/org/togetherjava/tjbot/commands/filesharing/FileSharingMessageListener.java:145-149 | the mapped extension is never txt or fxml |
| FileSharing.MapExtensionTable | application/src/main/java/org/togetherjava/tjbot/commands/filesharing/FileSharingMessageListener.java:145-149 | no extension or txt becomes java, fxml becomes xml, anything else is kept; mapping twice equals mapping once |
| FileSharing.LastIndexOf | application/src/main/java/org/togetherjava/tjbot/commands/filesharing/FileSharingMessageListener.java:151 | the result is -1 exactly when the character is absent, else a position holding it with none after |
| FileSharing.BaseName | application/src/main/java/org/togetherjava/tjbot/commands/filesharing/FileSharingMessageListener.java:151-154 | the name is a prefix of the file name: all of it when it has no dot, else everything before its last dot |
| FileSharing.NameOf | application/src/main/java/org/togetherjava/tjbot/commands/filesharing/FileSharingMessageListener.java:141-159 | the gist name is the base name followed by a dot and the mapped extension, so it always ends with that extension |
| FileSharing.LastDotBeforeExtension | application/src/main/java/org/togetherjava/tjbot/commands/filesharing/FileSharingMessageListener.java:151-156 | in a renamed file the last dot is the one added before the extension |
| FileSharing.NameOfIdempotent | application/src/main/java/org/togetherjava/tjbot/commands/filesharing/FileSharingMessageListener.java:141-159 | renaming an already renamed attachment changes nothing when the extension holds no dot |
| FileSharing.NameOfKeepsMappedName | application/src/main/java/org/togetherjava/tjbot/commands/filesharing/FileSharingMessageListener.java:141-159 | a file already named with an extension that the mapping keeps is uploaded under its own name |
| FileSharing.CheckGistResponse | application/src/main/java/org/togetherjava/tjbot/commands/filesharing/FileSharingMessageListener.java:189-195 | an accepted response passes its body on unchanged, and a rejected one fails with an error carrying the response body; which statuses are accepted is stated by `FileSharing.GistAcceptsSuccessClass` |
| FileSharing.GistAcceptsSuccessClass | application/src/main/java/org/togetherjava/tjbot/commands/filesharing/FileSharingMessageListener.java:189-195 | a response is accepted exactly when its status is in the 2xx class, that is from 200 up to but excluding 300; every other status is rejected |

## Left out

- onReady bootstrap: loading the configuration, resolving status channels, the initial busy scan (`checkBusyStatusAllChannels`), `initStatusMessages` and the first publish for every status channel. These are configuration plumbing and platform scans. The model takes `ready` as a field of the state; the source sets it at the end of `onReady`.
- ChannelMonitor's configuration calls (`addChannelToMonitor`, `addChannelForStatus`) and its rendering layout. Its source is not part of this model; the `ChannelMonitor` module covers only the queries and updates `FreeCommand` makes. The rendered text is abstracted to the channel-to-occupant map of the guild (`Platform.StatusSummary`), and the embed's title and colour are left out.
- Asynchrony: `.queue()` continuations run immediately after the call that queued them. A send's outcome is an input (`StatusView.sent`). Failures of edit, delete and reply have no effect on state in the source and are not modelled.
- Blocking platform queries (`getHistoryAround`, `retrievePast`) are assumed to succeed. They appear as `RetrieveMessage` and `RetrieveHistory` effects so that "scanned or not" can be observed.
- FreeCommand.DisplayStatus: its contract gives only the frame and the shape of the call list; the reconciliation guarantees are stated by `FreeCommand.DisplayStatusReconciles` and `FreeCommand.Publish`.
- Concurrency and thread safety of the maps: the source has no synchronisation, and the model is sequential.
- The gist upload itself: the HTTP client, JSON serialisation, attachment download and decoding, the parallel fan-out in `processAttachments`, parsing the gist response, and the reply with the link. These are network I/O and concurrency.
- FileSharing.CheckGistResponse: the source's error message holds the response body and the request JSON; the model's error keeps only the response body, because the request JSON is not modelled.
- The staging and overview channel-name regexes are opaque predicates (`HelpChannelPatterns`). The file extension of an attachment is taken as the platform reports it and is not derived from the file name.
- `OnGuildLeaveCloseThreadListener` and `HelpThreadMetadataPurger`: database queries and thread archiving through the platform, with no local decision logic.
- Event types other than slash commands and guild messages are ignored by the source and have no case in `FreeCommand.Event`.
- Three behaviours that the class comment of `FreeCommand` describes are not implemented in the source; they are only listed as todos. The model follows the code and does not have them either:
  - a reply to an existing message in a free channel should leave the channel free; the code marks the channel busy on any human message, so `FreeCommand.Event` has no reply flag;
  - a channel should become free after a period without traffic;
  - a user who starts typing in a busy channel should get a warning.

=== FILE: channel_monitor.dfy ===
/**
 * The channel monitor as the free command uses it: which channels are monitored, which
 * channel of each guild shows the status, and who occupies each monitored channel.
 * A channel is busy exactly when an occupant is recorded, by construction.
 */
module ChannelMonitor {
  import opened Optional
  import opened Platform

  /** A monitored help channel: the guild it belongs to and its occupant while busy. */
  datatype MonitoredChannel = MonitoredChannel(guild: GuildId, occupant: Option<UserId>) {
    predicate IsBusy() { occupant.Some? }
  }

  /** All monitored channels, and for every configured guild the channel holding its status. */
  datatype Monitor = Monitor(channels: map<ChannelId, MonitoredChannel>, statusChannels: map<GuildId, ChannelId>)

  /** A guild is monitored when a status channel is configured for it. */
  predicate IsMonitoringGuild(m: Monitor, g: GuildId) {
    g in m.statusChannels
  }

  /** A channel is monitored when it has a record in the monitor. */
  predicate IsMonitoringChannel(m: Monitor, c: ChannelId) {
    c in m.channels
  }

  /** Asking about an unmonitored channel is an error in the monitor; callers check first. */
  predicate IsChannelBusy(m: Monitor, c: ChannelId)
    requires IsMonitoringChannel(m, c)
  {
    m.channels[c].IsBusy()
  }

  /** The configuration is the same: same status channels, same monitored channels in the same guilds. */
  predicate SameConfiguration(m: Monitor, m': Monitor) {
    && m'.statusChannels == m.statusChannels
    && m'.channels.Keys == m.channels.Keys
    && forall c :: c in m.channels ==> m'.channels[c].guild == m.channels[c].guild
  }

  /** Every monitored channel other than `c` keeps its record. */
  predicate OthersUnchanged(m: Monitor, m': Monitor, c: ChannelId)
    requires m'.channels.Keys == m.channels.Keys
  {
    forall d :: d in m.channels && d != c ==> m'.channels[d] == m.channels[d]
  }

  /**
   * Marks `c` busy with occupant `u`. Only a free channel changes: on a busy channel the
   * call does nothing, so the first occupant stays.
   */
  function SetChannelBusy(m: Monitor, c: ChannelId, u: UserId): (r: Monitor)
    requires IsMonitoringChannel(m, c)
    ensures SameConfiguration(m, r) && OthersUnchanged(m, r, c)
    ensures IsChannelBusy(r, c)
    ensures IsChannelBusy(m, c) ==> r == m
    ensures !IsChannelBusy(m, c) ==> r.channels[c].occupant == Some(u)
  {
    if m.channels[c].IsBusy() then m
    else m.(channels := m.channels[c := m.channels[c].(occupant := Some(u))])
  }

  /** Marks `c` free and forgets its occupant; a free channel stays as it is. */
  function SetChannelFree(m: Monitor, c: ChannelId): (r: Monitor)
    requires IsMonitoringChannel(m, c)
    ensures SameConfiguration(m, r) && OthersUnchanged(m, r, c)
    ensures !IsChannelBusy(r, c)
    ensures !IsChannelBusy(m, c) ==> r == m
  {
    m.(channels := m.channels[c := m.channels[c].(occupant := None)])
  }

  /** The status channel of a guild; None when the guild is not configured. */
  function StatusChannelFor(m: Monitor, g: GuildId): (r: Option<ChannelId>)
    ensures r.Some? <==> IsMonitoringGuild(m, g)
    ensures r.Some? ==> r.value == m.statusChannels[g]
  {
    if g in m.statusChannels then Some(m.statusChannels[g]) else None
  }

  /** The rendered status of guild `g`: every monitored channel of `g` with its occupant. */
  function StatusMessage(m: Monitor, g: GuildId): (r: StatusSummary)
    ensures r.guild == g
    ensures forall c :: c in r.entries <==> c in m.channels && m.channels[c].guild == g
    ensures forall c :: c in r.entries ==> r.entries[c] == m.channels[c].occupant
  {
    StatusSummary(g, map c | c in m.channels && m.channels[c].guild == g :: m.channels[c].occupant)
  }

  /** The summary lists `c` as busy with occupant `u`. */
  predicate ListsBusy(t: StatusSummary, c: ChannelId, u: UserId) {
    c in t.entries && t.entries[c] == Some(u)
  }

  /** The summary lists `c` as free. */
  predicate ListsFree(t: StatusSummary, c: ChannelId) {
    c in t.entries && t.entries[c] == None
  }

  /**
   * The summary of a guild lists exactly that guild's monitored channels, each busy with
   * its occupant or free.
   */
  lemma StatusMessageListsGuildChannels(m: Monitor, g: GuildId, c: ChannelId)
    ensures StatusMessage(m, g).guild == g
    ensures c in StatusMessage(m, g).entries <==> c in m.channels && m.channels[c].guild == g
    ensures c in m.channels && m.channels[c].guild == g && IsChannelBusy(m, c)
            ==> ListsBusy(StatusMessage(m, g), c, m.channels[c].occupant.value)
    ensures c in m.channels && m.channels[c].guild == g && !IsChannelBusy(m, c)
            ==> ListsFree(StatusMessage(m, g), c)
  {
  }

  /** The summary of `g` depends on nothing but the records of `g`'s monitored channels. */
  lemma StatusMessageIsLocal(m: Monitor, m': Monitor, g: GuildId)
    requires forall c :: (c in m.channels && m.channels[c].guild == g) <==> (c in m'.channels && m'.channels[c].guild == g)
    requires forall c :: c in m.channels && m.channels[c].guild == g ==> m'.channels[c].occupant == m.channels[c].occupant
    ensures StatusMessage(m', g) == StatusMessage(m, g)
  {
  }

  /** A second occupant cannot displace the first: the later call is a no-op. */
  lemma FirstOccupantWins(m: Monitor, c: ChannelId, u1: UserId, u2: UserId)
    requires IsMonitoringChannel(m, c) && !IsChannelBusy(m, c)
    ensures SetChannelBusy(SetChannelBusy(m, c, u1), c, u2) == SetChannelBusy(m, c, u1)
    ensures SetChannelBusy(SetChannelBusy(m, c, u1), c, u2).channels[c].occupant == Some(u1)
  {
  }

  /** Freeing a channel undoes marking it busy. */
  lemma BusyThenFreeRestores(m: Monitor, c: ChannelId, u: UserId)
    requires IsMonitoringChannel(m, c) && !IsChannelBusy(m, c)
    ensures SetChannelFree(SetChannelBusy(m, c, u), c) == m
  {
  }

  /** Freeing a channel twice, busy or free, equals freeing it once. */
  lemma FreeTwiceIsFreeOnce(m: Monitor, c: ChannelId)
    requires IsMonitoringChannel(m, c)
    ensures SetChannelFree(SetChannelFree(m, c), c) == SetChannelFree(m, c)
  {
  }

  /** Changing a channel of one guild leaves the summary of every other guild as it was. */
  lemma OccupancyChangeIsLocal(m: Monitor, c: ChannelId, u: UserId, g: GuildId)
    requires IsMonitoringChannel(m, c) && m.channels[c].guild != g
    ensures StatusMessage(SetChannelBusy(m, c, u), g) == StatusMessage(m, g)
    ensures StatusMessage(SetChannelFree(m, c), g) == StatusMessage(m, g)
  {
  }
}

=== FILE: file_sharing.dfy ===
/**
 * The file-sharing listener of the help system: which messages it processes, which of
 * their attachments it uploads, the file name each attachment gets in the gist, and which
 * responses of the gist service it accepts.
 */
module FileSharing {
  import opened Optional

  /** A message attachment: its file name and the extension the platform reports, if any. */
  datatype Attachment = Attachment(fileName: string, extension: Option<string>)

  /** The extensions whose attachments are uploaded. */
  const ExtensionFilter: set<string> :=
    {"txt", "java", "gradle", "xml", "kt", "json", "fxml", "css", "c", "h", "cpp", "py", "yml"}

  /**
   * An attachment is uploaded when it has an extension and that extension is in the filter;
   * such a file is always named with a filter extension other than txt and fxml.
   */
  predicate IsAttachmentRelevant(a: Attachment)
    ensures a.extension.None? ==> !IsAttachmentRelevant(a)
    ensures IsAttachmentRelevant(a) ==> MapExtension(a.extension) in ExtensionFilter - {"txt", "fxml"}
  {
    a.extension.Some? && a.extension.value in ExtensionFilter
  }

  /** `xs` is `ys` with some elements left out, the rest in their original order. */
  predicate IsSubsequence<T(==)>(xs: seq<T>, ys: seq<T>)
    decreases |ys|
  {
    if |xs| == 0 then true
    else if |ys| == 0 then false
    else if xs[0] == ys[0] then IsSubsequence(xs[1..], ys[1..])
    else IsSubsequence(xs, ys[1..])
  }

  /**
   * The relevant attachments of a message, in their original order: a subsequence of the
   * input holding every relevant attachment as often as the input does, and nothing else.
   */
  function RelevantAttachments(atts: seq<Attachment>): (r: seq<Attachment>)
    ensures IsSubsequence(r, atts)
    ensures forall i :: 0 <= i < |r| ==> IsAttachmentRelevant(r[i])
    ensures forall a :: multiset(r)[a] == if IsAttachmentRelevant(a) then multiset(atts)[a] else 0
  {
    if |atts| == 0 then []
    else
      var rest := RelevantAttachments(atts[1..]);
      assert atts == [atts[0]] + atts[1..];
      if IsAttachmentRelevant(atts[0]) then
        assert ([atts[0]] + rest)[1..] == rest;
        [atts[0]] + rest
      else
        assert |rest| > 0 ==> rest[0] != atts[0];
        rest
  }

  /** Some attachment is relevant exactly when the relevant list is not empty. */
  lemma RelevantAttachmentsEmpty(atts: seq<Attachment>)
    ensures |RelevantAttachments(atts)| == 0 <==> forall i :: 0 <= i < |atts| ==> !IsAttachmentRelevant(atts[i])
  {
  }

  /** Where a message was posted: a public thread under a named parent channel, or anything else. */
  datatype ChannelKind = PublicThread(parentName: string) | OtherChannel

  /** The parts of a received message the listener looks at. */
  datatype ReceivedMessage = ReceivedMessage(authorIsBot: bool, isWebhook: bool, channel: ChannelKind,
                                             attachments: seq<Attachment>)

  /** The configured name patterns of the help system's staging and overview channels. */
  datatype HelpChannelPatterns = HelpChannelPatterns(isStagingName: string -> bool, isOverviewName: string -> bool)

  /** A help thread is a public thread whose parent channel is a staging or an overview channel. */
  predicate IsHelpThread(p: HelpChannelPatterns, ch: ChannelKind)
  {
    match ch
    case PublicThread(parent) => p.isStagingName(parent) || p.isOverviewName(parent)
    case OtherChannel => false
  }

  /**
   * onMessageReceived: the attachments to upload, or None when the message is ignored.
   */
  function OnMessageReceived(p: HelpChannelPatterns, msg: ReceivedMessage): (r: Option<seq<Attachment>>)
    ensures r.Some? <==> && !msg.authorIsBot && !msg.isWebhook
                         && msg.channel.PublicThread?
                         && (p.isStagingName(msg.channel.parentName) || p.isOverviewName(msg.channel.parentName))
                         && exists i :: 0 <= i < |msg.attachments| && IsAttachmentRelevant(msg.attachments[i])
    ensures r.Some? ==> |r.value| > 0 && r.value == RelevantAttachments(msg.attachments)
  {
    if msg.authorIsBot || msg.isWebhook then None
    else if !IsHelpThread(p, msg.channel) then None
    else
      var relevant := RelevantAttachments(msg.attachments);
      RelevantAttachmentsEmpty(msg.attachments);
      if |relevant| == 0 then None else Some(relevant)
  }

  /** The extension a file gets in the gist: text files become Java, FXML becomes XML. */
  function MapExtension(ext: Option<string>): (r: string)
    ensures r != "txt" && r != "fxml"
  {
    if ext.None? || ext.value == "txt" then "java"
    else if ext.value == "fxml" then "xml"
    else ext.value
  }

  /** The extension mapping as a table: what each input becomes, and that mapping twice changes nothing. */
  lemma MapExtensionTable(ext: Option<string>)
    ensures (ext.None? || ext == Some("txt")) ==> MapExtension(ext) == "java"
    ensures ext == Some("fxml") ==> MapExtension(ext) == "xml"
    ensures ext.Some? && ext.value != "txt" && ext.value != "fxml" ==> MapExtension(ext) == ext.value
    ensures MapExtension(Some(MapExtension(ext))) == MapExtension(ext)
  {
  }

  /**
   * Thirteen extensions are uploaded, and renaming keeps an attachment uploadable: the
   * renamed file, with its mapped extension, is itself relevant.
   */
  lemma RelevantExtensions(a: Attachment)
    ensures |ExtensionFilter| == 13
    ensures IsAttachmentRelevant(a) ==> IsAttachmentRelevant(Attachment(NameOf(a), Some(MapExtension(a.extension))))
  {
  }

  /** Java's lastIndexOf: the position of the last `c` in `s`, or -1 when there is none. */
  function LastIndexOf(s: string, c: char): (r: int)
    ensures -1 <= r < |s|
    ensures r == -1 <==> c !in s
    ensures r >= 0 ==> s[r] == c && forall j :: r < j < |s| ==> s[j] != c
    decreases |s|
  {
    if |s| == 0 then -1
    else if s[|s| - 1] == c then |s| - 1
    else
      assert s == s[..|s| - 1] + [s[|s| - 1]];
      LastIndexOf(s[..|s| - 1], c)
  }

  /** The file name up to, not including, its last '.', or the whole name when it has none. */
  function BaseName(fileName: string): (r: string)
    ensures r <= fileName
    ensures '.' !in fileName ==> r == fileName
    ensures '.' in fileName ==> |r| < |fileName| && fileName[|r|] == '.' && '.' !in fileName[|r| + 1..]
  {
    var i := LastIndexOf(fileName, '.');
    if i != -1 then fileName[..i] else fileName
  }

  /**
   * getNameOf: the attachment's file name without its extension, followed by '.' and the
   * mapped extension.
   */
  function NameOf(a: Attachment): (r: string)
    ensures var ext := MapExtension(a.extension);
            && |r| > |ext|
            && r[|r| - |ext| - 1..] == "." + ext
            && r[..|r| - |ext| - 1] == BaseName(a.fileName)
  {
    BaseName(a.fileName) + "." + MapExtension(a.extension)
  }

  /** In `b + "." + e` with no '.' in `e`, the last '.' is the one after `b`. */
  lemma LastDotBeforeExtension(b: string, e: string)
    requires '.' !in e
    ensures LastIndexOf(b + "." + e, '.') == |b|
  {
    var s := b + "." + e;
    assert s[|b|] == '.';
    assert '.' in s;
  }

  /** Renaming a renamed attachment again changes nothing, as long as the extension holds no '.'. */
  lemma NameOfIdempotent(a: Attachment)
    requires '.' !in MapExtension(a.extension)
    ensures NameOf(Attachment(NameOf(a), Some(MapExtension(a.extension)))) == NameOf(a)
  {
    var ext := MapExtension(a.extension);
    MapExtensionTable(a.extension);
    LastDotBeforeExtension(BaseName(a.fileName), ext);
    assert NameOf(a) == BaseName(a.fileName) + "." + ext;
    assert BaseName(NameOf(a)) == BaseName(a.fileName);
  }

  /**
   * A file already named with an extension the mapping keeps (`Foo.java`) is uploaded under
   * its own name.
   */
  lemma NameOfKeepsMappedName(b: string, e: string)
    requires '.' !in e && e != "txt" && e != "fxml"
    ensures NameOf(Attachment(b + "." + e, Some(e))) == b + "." + e
  {
    LastDotBeforeExtension(b, e);
    assert BaseName(b + "." + e) == (b + "." + e)[..|b|];
    assert (b + "." + e)[..|b|] == b;
  }

  /** The status codes of java.net.HttpURLConnection that bound a successful response. */
  const HttpOk: int := 200
  const HttpMultipleChoices: int := 300

  /** A gist upload rejected by the service, reported with the body it sent. */
  datatype GistError = UnexpectedResponse(body: string)

  /**
   * The status check of uploadToGist: a 2xx response passes its body on to be parsed;
   * every other status is an error carrying the body.
   */
  function CheckGistResponse(status: int, body: string): (r: Result<string, GistError>)
    ensures r.Success? ==> r.value == body
    ensures r.Failure? ==> r.error == UnexpectedResponse(body)
  {
    if status < HttpOk || status >= HttpMultipleChoices then Failure(UnexpectedResponse(body))
    else Success(body)
  }

  /** A response is accepted exactly when its status is in the 2xx class. */
  lemma GistAcceptsSuccessClass(status: int, body: string)
    ensures CheckGistResponse(status, body).Success? <==> status / 100 == 2
  {
  }
}

=== FILE: free_command.dfy ===
/**
 * The /free command: a guarded slash command that frees a busy help channel, a message
 * listener that marks a free help channel busy, and the publishing of each guild's status
 * message, all as pure transitions from a state and an event to a new state and the list
 * of calls made against the platform.
 */
module FreeCommand {
  import opened Optional
  import opened Platform
  import opened ChannelMonitor
  import opened StatusCache

  /** Everything the command keeps between events. */
  datatype FreeState = FreeState(ready: bool, monitor: Monitor, cache: Cache)

  /** The result of handling one event. */
  datatype Step = Step(state: FreeState, effects: seq<Effect>)

  /**
   * The status channel as the platform shows it while a status is published, and the id
   * the platform gives the newly sent status message, None when the send fails.
   */
  datatype StatusView = StatusView(channel: ChannelView, sent: Option<MessageId>)

  /** The events the command reacts to. */
  datatype Event =
    | SlashFree(guild: GuildId, channel: ChannelId, user: UserId)
    | GuildMessage(guild: GuildId, channel: ChannelId, author: UserId, authorIsBot: bool, isWebhook: bool)

  /**
   * Every cached status-message entry belongs to a configured status channel, and a
   * channel that was never looked up has no entry at all.
   */
  predicate Valid(s: FreeState) {
    forall c :: c in s.cache ==> c in s.monitor.statusChannels.Values && s.cache[c] != Unknown
  }

  /** The error reply a slash command gets before it is handled, or None when it may proceed. */
  function ShouldHandle(s: FreeState, guild: GuildId, channel: ChannelId): (r: Option<UserString>)
    ensures r.None? <==> s.ready && IsMonitoringGuild(s.monitor, guild) && IsMonitoringChannel(s.monitor, channel)
    ensures !s.ready ==> r == Some(NotReadyError)
    ensures s.ready && !IsMonitoringGuild(s.monitor, guild) ==> r == Some(NotConfiguredError(guild))
    ensures s.ready && IsMonitoringGuild(s.monitor, guild) && !IsMonitoringChannel(s.monitor, channel)
            ==> r == Some(NotMonitoredError)
  {
    if !s.ready then Some(NotReadyError)
    else if !IsMonitoringGuild(s.monitor, guild) then Some(NotConfiguredError(guild))
    else if !IsMonitoringChannel(s.monitor, channel) then Some(NotMonitoredError)
    else None
  }

  /** Records the id of a status message that was sent, once the send succeeded. */
  function RememberSent(cache: Cache, c: ChannelId, sent: Option<MessageId>): Cache {
    match sent
    case Some(n) => cache[c := Present(n)]
    case None => cache
  }

  /** The effect that writes the status: a send or an edit. */
  predicate IsStatusWrite(e: Effect) {
    e.SendStatus? || e.EditStatus?
  }

  /** The calls that write the status once the current status message is known, and the cache after them. */
  datatype Publication = Publication(cache: Cache, effects: seq<Effect>)

  /**
   * The publish decision of displayStatus: a found message that is the channel's latest is
   * edited; a found message that is not the latest is deleted and a new one sent; with no
   * message a new one is sent. Only a successful send changes the cache.
   */
  function Publish(found: Option<MessageId>, cache: Cache, c: ChannelId, text: StatusSummary,
                   latest: MessageId, sent: Option<MessageId>): (r: Publication)
    ensures 1 <= |r.effects| <= 2
    ensures forall i :: 0 <= i < |r.effects| - 1 ==> found.Some? && r.effects[i] == DeleteMessage(c, found.value) && found.value != latest
    ensures r.effects[|r.effects| - 1] == EditStatus(c, latest, text) <==> found == Some(latest)
    ensures r.effects[|r.effects| - 1] != EditStatus(c, latest, text) ==> r.effects[|r.effects| - 1] == SendStatus(c, text)
    ensures |r.effects| == 2 <==> found.Some? && found.value != latest
    ensures r.effects[|r.effects| - 1].SendStatus? && sent.Some? ==> r.cache == cache[c := Present(sent.value)]
    ensures r.effects[|r.effects| - 1].EditStatus? || sent.None? ==> r.cache == cache
    ensures r.cache.Keys <= cache.Keys + {c}
    ensures forall d :: d in r.cache && d != c ==> r.cache[d] == cache[d]
    ensures c in cache && cache[c] != Unknown ==> c in r.cache && r.cache[c] != Unknown
  {
    match found
    case Some(m) =>
      if m != latest then
        Publication(RememberSent(cache, c, sent), [DeleteMessage(c, m), SendStatus(c, text)])
      else
        Publication(cache, [EditStatus(c, m, text)])
    case None =>
      Publication(RememberSent(cache, c, sent), [SendStatus(c, text)])
  }

  /**
   * displayStatus for the status channel of guild `g`: renders the guild's status, looks up
   * the current status message and publishes. A guild without a status channel makes the
   * source throw before any call.
   */
  function DisplayStatus(s: FreeState, g: GuildId, view: StatusView): (r: Step)
    ensures r.state.ready == s.ready && r.state.monitor == s.monitor
    ensures !IsMonitoringGuild(s.monitor, g) ==> r == Step(s, [])
    ensures IsMonitoringGuild(s.monitor, g) ==> |r.effects| >= 1 && IsStatusWrite(r.effects[|r.effects| - 1])
  {
    match StatusChannelFor(s.monitor, g)
    case None => Step(s, [])
    case Some(c) =>
      var lookup := GetStatusMessageIn(s.cache, c, view.channel);
      var p := Publish(lookup.found, lookup.cache, c, StatusMessage(s.monitor, g), view.channel.latestId, view.sent);
      Step(s.(cache := p.cache), lookup.effects + p.effects)
  }

  /**
   * What a publish guarantees about the status channel `c` of a configured guild: the
   * last call writes the fresh summary, nothing before it writes, only a stale (not
   * latest) message is ever deleted, the history is scanned exactly when the cache knew
   * nothing, the entry leaves Unknown for good, a successful send is remembered, and a
   * failed send or an edit leaves a known entry as it was. No other entry changes.
   */
  lemma DisplayStatusReconciles(s: FreeState, g: GuildId, view: StatusView)
    requires IsMonitoringGuild(s.monitor, g)
    ensures var r := DisplayStatus(s, g, view);
            var c := s.monitor.statusChannels[g];
            var text := StatusMessage(s.monitor, g);
            var last := r.effects[|r.effects| - 1];
            && (last == SendStatus(c, text) || last == EditStatus(c, view.channel.latestId, text))
            && (forall i :: 0 <= i < |r.effects| - 1 ==> !IsStatusWrite(r.effects[i]))
            && (forall e :: e in r.effects && e.DeleteMessage? ==> e.channel == c && e.id != view.channel.latestId)
            && (RetrieveHistory(c, HistoryWindow) in r.effects <==> RefOf(s.cache, c) == Unknown)
            && RefOf(r.state.cache, c) != Unknown
            && (forall d :: d != c ==> RefOf(r.state.cache, d) == RefOf(s.cache, d))
            && (last.SendStatus? && view.sent.Some? ==> RefOf(r.state.cache, c) == Present(view.sent.value))
            && (RefOf(s.cache, c) != Unknown && (last.EditStatus? || view.sent.None?) ==> r.state.cache == s.cache)
  {
  }

  /**
   * A publish only scans a channel whose entry is Unknown and leaves it known, so a later
   * publish for the same guild never scans again.
   */
  lemma ScanRunsAtMostOnce(s: FreeState, g: GuildId, view1: StatusView, view2: StatusView)
    requires IsMonitoringGuild(s.monitor, g)
    ensures var c := s.monitor.statusChannels[g];
            var r1 := DisplayStatus(s, g, view1);
            var r2 := DisplayStatus(r1.state, g, view2);
            RetrieveHistory(c, HistoryWindow) !in r2.effects
  {
  }

  /**
   * Recovery after a restart: with nothing cached and the channel's latest message being
   * the bot's only recent status message, the publish finds it by scanning, edits it in
   * place, and caches its id; the next publish edits it again without scanning.
   */
  lemma ColdCacheFindsAndEdits(s: FreeState, g: GuildId, view: StatusView, k: nat)
    requires IsMonitoringGuild(s.monitor, g)
    requires RefOf(s.cache, s.monitor.statusChannels[g]) == Unknown
    requires k < |view.channel.history| && k < HistoryWindow && IsStatusCandidate(view.channel.history[k])
    requires forall j :: 0 <= j < |view.channel.history| && j != k ==> !IsStatusCandidate(view.channel.history[j])
    requires view.channel.history[k].id == view.channel.latestId
    ensures var c := s.monitor.statusChannels[g];
            var text := StatusMessage(s.monitor, g);
            var r := DisplayStatus(s, g, view);
            && r.effects == [RetrieveHistory(c, HistoryWindow), EditStatus(c, view.channel.latestId, text)]
            && RefOf(r.state.cache, c) == Present(view.channel.latestId)
            && DisplayStatus(r.state, g, view).effects
               == [RetrieveMessage(c, view.channel.latestId), EditStatus(c, view.channel.latestId, text)]
  {
  }

  /**
   * A cached status message that is no longer the channel's latest is deleted and replaced,
   * and the cache then holds the replacement's id.
   */
  lemma StaleStatusIsReplaced(s: FreeState, g: GuildId, view: StatusView, n: MessageId)
    requires IsMonitoringGuild(s.monitor, g)
    requires var c := s.monitor.statusChannels[g];
             RefOf(s.cache, c).Present? && Retrievable(view.channel, RefOf(s.cache, c).id)
             && RefOf(s.cache, c).id != view.channel.latestId
    requires view.sent == Some(n)
    ensures var c := s.monitor.statusChannels[g];
            var r := DisplayStatus(s, g, view);
            && r.effects == [RetrieveMessage(c, RefOf(s.cache, c).id), DeleteMessage(c, RefOf(s.cache, c).id),
                             SendStatus(c, StatusMessage(s.monitor, g))]
            && RefOf(r.state.cache, c) == Present(n)
  {
  }

  /**
   * /free: after the guards, a busy channel is freed, the guild's status republished and
   * the user told so; a free channel gets an error reply and nothing changes.
   */
  function OnSlashCommand(s: FreeState, guild: GuildId, channel: ChannelId, view: StatusView): (r: Step)
    ensures r.state.ready == s.ready && SameConfiguration(s.monitor, r.state.monitor)
    ensures |r.effects| >= 1
    ensures r.effects[|r.effects| - 1].ErrorReply?
            <==> !(ShouldHandle(s, guild, channel).None? && IsChannelBusy(s.monitor, channel))
    ensures r.effects[|r.effects| - 1].ErrorReply? ==>
              && r.state == s
              && r.effects == [ErrorReply(if ShouldHandle(s, guild, channel).Some?
                                          then ShouldHandle(s, guild, channel).value
                                          else AlreadyFreeError)]
    ensures !r.effects[|r.effects| - 1].ErrorReply? ==>
              && r.effects[|r.effects| - 1] == Reply(MarkAsFree)
              && !IsChannelBusy(r.state.monitor, channel)
              && OthersUnchanged(s.monitor, r.state.monitor, channel)
              && |r.effects| >= 2
              && IsStatusWrite(r.effects[|r.effects| - 2])
              && r.effects[|r.effects| - 2].channel == s.monitor.statusChannels[guild]
              && r.effects[|r.effects| - 2].text == StatusMessage(r.state.monitor, guild)
  {
    match ShouldHandle(s, guild, channel)
    case Some(err) => Step(s, [ErrorReply(err)])
    case None =>
      if IsChannelBusy(s.monitor, channel) then
        var freed := s.(monitor := SetChannelFree(s.monitor, channel));
        var published := DisplayStatus(freed, guild, view);
        Step(published.state, published.effects + [Reply(MarkAsFree)])
      else
        Step(s, [ErrorReply(AlreadyFreeError)])
  }

  /**
   * A message posted in a guild: a human's message in a free monitored channel makes the
   * author its occupant, republishes the guild's status and answers the message; every
   * other message is ignored. Readiness is not consulted.
   */
  function OnGuildMessage(s: FreeState, guild: GuildId, channel: ChannelId, author: UserId,
                          authorIsBot: bool, isWebhook: bool, view: StatusView): (r: Step)
    ensures r.state.ready == s.ready && SameConfiguration(s.monitor, r.state.monitor)
    ensures r.state == s <==> isWebhook || authorIsBot || !IsMonitoringChannel(s.monitor, channel)
                              || IsChannelBusy(s.monitor, channel)
    ensures r.state == s ==> r.effects == []
    ensures r.state != s ==>
              && r.state.monitor.channels[channel].occupant == Some(author)
              && OthersUnchanged(s.monitor, r.state.monitor, channel)
    ensures (|r.effects| >= 1 && r.effects[|r.effects| - 1] == Reply(NewQuestion))
            <==> r.state != s && IsMonitoringGuild(s.monitor, guild)
    ensures r.state != s && IsMonitoringGuild(s.monitor, guild) ==>
              && |r.effects| >= 2
              && IsStatusWrite(r.effects[|r.effects| - 2])
              && r.effects[|r.effects| - 2].channel == s.monitor.statusChannels[guild]
              && r.effects[|r.effects| - 2].text == StatusMessage(r.state.monitor, guild)
    ensures r.state != s && !IsMonitoringGuild(s.monitor, guild) ==> r.effects == []
  {
    if isWebhook || authorIsBot then Step(s, [])
    else if !IsMonitoringChannel(s.monitor, channel) then Step(s, [])
    else if IsChannelBusy(s.monitor, channel) then Step(s, [])
    else
      var taken := s.(monitor := SetChannelBusy(s.monitor, channel, author));
      if StatusChannelFor(taken.monitor, guild).None? then Step(taken, [])
      else
        var published := DisplayStatus(taken, guild, view);
        Step(published.state, published.effects + [Reply(NewQuestion)])
  }

  /**
   * Dispatches an event to its handler. Whatever the event, readiness and configuration
   * stay, only the event's own channel can change occupancy, and a message in a channel
   * that is already busy changes nothing.
   */
  function Handle(s: FreeState, e: Event, view: StatusView): (r: Step)
    ensures r.state.ready == s.ready && SameConfiguration(s.monitor, r.state.monitor)
    ensures OthersUnchanged(s.monitor, r.state.monitor, e.channel)
    ensures e.GuildMessage? && IsMonitoringChannel(s.monitor, e.channel) && IsChannelBusy(s.monitor, e.channel)
            ==> r == Step(s, [])
  {
    match e
    case SlashFree(guild, channel, _) => OnSlashCommand(s, guild, channel, view)
    case GuildMessage(guild, channel, author, isBot, isWebhook) =>
      OnGuildMessage(s, guild, channel, author, isBot, isWebhook, view)
  }

  /** The platform delivers an event for a monitored channel together with that channel's own guild. */
  predicate WellFormedEvent(s: FreeState, e: Event) {
    e.channel in s.monitor.channels ==> s.monitor.channels[e.channel].guild == e.guild
  }

  /**
   * For an event the platform can deliver, the status written after /free lists the freed
   * channel as free, and the status written after a question lists its author as the
   * channel's occupant.
   */
  lemma WrittenStatusShowsChange(s: FreeState, e: Event, view: StatusView)
    requires WellFormedEvent(s, e)
    ensures var r := Handle(s, e, view);
            && (e.SlashFree? && r.effects[|r.effects| - 1] == Reply(MarkAsFree)
                ==> ListsFree(r.effects[|r.effects| - 2].text, e.channel))
            && (e.GuildMessage? && |r.effects| >= 1 && r.effects[|r.effects| - 1] == Reply(NewQuestion)
                ==> ListsBusy(r.effects[|r.effects| - 2].text, e.channel, e.author))
  {
  }

  /** Handling any event keeps the configuration and readiness, and keeps every cache entry on a status channel. */
  lemma HandlePreservesValid(s: FreeState, e: Event, view: StatusView)
    requires Valid(s)
    ensures var r := Handle(s, e, view);
            && Valid(r.state)
            && r.state.ready == s.ready
            && SameConfiguration(s.monitor, r.state.monitor)
            && OthersUnchanged(s.monitor, r.state.monitor, e.channel)
  {
  }

  /** An event that is rejected or ignored leaves the cache alone and makes no call but an error reply. */
  lemma IgnoredEventKeepsCache(s: FreeState, e: Event, view: StatusView)
    requires e.SlashFree? ==> !(ShouldHandle(s, e.guild, e.channel).None? && IsChannelBusy(s.monitor, e.channel))
    requires e.GuildMessage? ==> !(!e.isWebhook && !e.authorIsBot && IsMonitoringChannel(s.monitor, e.channel)
                                   && !IsChannelBusy(s.monitor, e.channel) && IsMonitoringGuild(s.monitor, e.guild))
    ensures Handle(s, e, view).state.cache == s.cache
    ensures forall x :: x in Handle(s, e, view).effects ==> x.ErrorReply?
  {
  }

  /** What a handler adds after publishing, a reply, is not a scan. */
  lemma PublishScanFacts(pre: FreeState, g: GuildId, view: StatusView, reply: Effect, c: ChannelId)
    requires !reply.RetrieveHistory?
    ensures var p := DisplayStatus(pre, g, view);
            && (RetrieveHistory(c, HistoryWindow) in p.effects + [reply]
                ==> RefOf(pre.cache, c) == Unknown && RefOf(p.state.cache, c) != Unknown)
            && (RefOf(pre.cache, c) != Unknown ==> RefOf(p.state.cache, c) != Unknown)
  {
  }

  /**
   * Once the history of a channel has been scanned, no later event scans it again: every
   * scan a step makes is of a channel that was Unknown before and is known after.
   */
  lemma HandleScansOnlyUnknown(s: FreeState, e: Event, view: StatusView, c: ChannelId)
    ensures var r := Handle(s, e, view);
            RetrieveHistory(c, HistoryWindow) in r.effects ==> RefOf(s.cache, c) == Unknown && RefOf(r.state.cache, c) != Unknown
    ensures RefOf(s.cache, c) != Unknown ==> RefOf(Handle(s, e, view).state.cache, c) != Unknown
  {
    if e.SlashFree? && ShouldHandle(s, e.guild, e.channel).None? && IsChannelBusy(s.monitor, e.channel) {
      PublishScanFacts(s.(monitor := SetChannelFree(s.monitor, e.channel)), e.guild, view, Reply(MarkAsFree), c);
    } else if e.GuildMessage? && !e.isWebhook && !e.authorIsBot && IsMonitoringChannel(s.monitor, e.channel)
              && !IsChannelBusy(s.monitor, e.channel) && IsMonitoringGuild(s.monitor, e.guild) {
      PublishScanFacts(s.(monitor := SetChannelBusy(s.monitor, e.channel, e.author)), e.guild, view, Reply(NewQuestion), c);
    } else {
      IgnoredEventKeepsCache(s, e, view);
    }
  }

  /**
   * The life of one help channel A (guild G, status channel S): a question marks it busy
   * and lists its author, /free lists it free again, a second /free is refused with no
   * change, and /free in an unregistered channel B is refused as not monitored.
   */
  lemma HelpChannelScenario(view: StatusView)
    ensures var a, b, g, st, asker := 1, 3, 10, 2, 7;
            var s0 := FreeState(true, Monitor(map[a := MonitoredChannel(g, None)], map[g := st]), map[]);
            var s1 := Handle(s0, GuildMessage(g, a, asker, false, false), view);
            var s2 := Handle(s1.state, SlashFree(g, a, asker), view);
            var s3 := Handle(s2.state, SlashFree(g, a, asker), view);
            var s4 := Handle(s2.state, SlashFree(g, b, asker), view);
            && ListsBusy(StatusMessage(s1.state.monitor, g), a, asker)
            && s1.effects[|s1.effects| - 1] == Reply(NewQuestion)
            && ListsFree(StatusMessage(s2.state.monitor, g), a)
            && s2.effects[|s2.effects| - 1] == Reply(MarkAsFree)
            && s3 == Step(s2.state, [ErrorReply(AlreadyFreeError)])
            && s4 == Step(s2.state, [ErrorReply(NotMonitoredError)])
  {
  }
}

=== FILE: optional.dfy ===
/** Option and Result values used where the source returns null, an empty Optional or throws. */
module Optional {

  /** A value that may be missing: Java's nullable references and Optional. */
  datatype Option<+T> = None | Some(value: T)

  /** A computation that either succeeds with a value or fails with an error. */
  datatype Result<+R, +E> = Success(value: R) | Failure(error: E)
}

=== FILE: platform.dfy ===
/**
 * The chat platform as the bot sees it: identifiers, the bot's reply texts, the rendered
 * channel-status summary, what a channel's history looks like when it is read, and the
 * outbound calls the bot makes. Every call the source queues or completes against the
 * platform appears here as an Effect value.
 */
module Platform {
  import opened Optional

  /** Platform snowflakes; the model only compares them for equality. */
  type GuildId = nat
  type ChannelId = nat
  type UserId = nat
  type MessageId = nat

  /** The user-facing texts of the free command. */
  datatype UserString =
    | NotReadyError
    | NotConfiguredError(guild: GuildId)
    | NotMonitoredError
    | AlreadyFreeError
    | MarkAsFree
    | NewQuestion

  /**
   * The status text of a guild, abstracted from its layout: every monitored channel of
   * the guild, mapped to its occupant when busy and to None when free.
   */
  datatype StatusSummary = StatusSummary(guild: GuildId, entries: map<ChannelId, Option<UserId>>)

  /** One message of a channel's history: its id, whether it carries an embed, whether the bot wrote it. */
  datatype HistoryMessage = HistoryMessage(id: MessageId, hasEmbeds: bool, bySelf: bool)

  /**
   * A text channel as the platform reports it: the id it gives as the latest message and
   * the messages it still holds, most recent first.
   */
  datatype ChannelView = ChannelView(latestId: MessageId, history: seq<HistoryMessage>)

  /** Outbound calls, in the order the bot issues them. */
  datatype Effect =
    | ErrorReply(error: UserString)
    | Reply(notice: UserString)
    | RetrieveMessage(channel: ChannelId, id: MessageId)
    | RetrieveHistory(channel: ChannelId, limit: nat)
    | SendStatus(channel: ChannelId, text: StatusSummary)
    | EditStatus(channel: ChannelId, id: MessageId, text: StatusSummary)
    | DeleteMessage(channel: ChannelId, id: MessageId)
}

=== FILE: status_cache.dfy ===
/**
 * The cache of status-message ids per status channel, and the lookup that fills it.
 * A channel missing from the cache has not been looked up (Unknown); looking it up
 * scans the channel's recent history once and records either the message found or
 * that there is none.
 */
module StatusCache {
  import opened Optional
  import opened Platform

  /** What the bot knows about the status message of one channel. */
  datatype StatusRef = Unknown | Absent | Present(id: MessageId)

  type Cache = map<ChannelId, StatusRef>

  /** The cache entry of `c`; a missing key means the channel was never looked up. */
  function RefOf(cache: Cache, c: ChannelId): StatusRef {
    if c in cache then cache[c] else Unknown
  }

  /** How many of the most recent messages the history scan looks at. */
  const HistoryWindow: nat := 100

  /** A message that can be the status message: it has an embed and the bot wrote it. */
  predicate IsStatusCandidate(m: HistoryMessage) {
    m.hasEmbeds && m.bySelf
  }

  /** The index of the first candidate in `h`, or None when `h` holds none. */
  function FirstCandidate(h: seq<HistoryMessage>): (r: Option<nat>)
    ensures r.Some? ==> r.value < |h| && IsStatusCandidate(h[r.value])
    ensures r.Some? ==> forall j :: 0 <= j < r.value ==> !IsStatusCandidate(h[j])
    ensures r.None? <==> forall j :: 0 <= j < |h| ==> !IsStatusCandidate(h[j])
  {
    if |h| == 0 then None
    else if IsStatusCandidate(h[0]) then Some(0)
    else match FirstCandidate(h[1..])
      case None => None
      case Some(i) => Some(i + 1)
  }

  /** The part of a history the scan reads: its HistoryWindow most recent messages. */
  function Window(h: seq<HistoryMessage>): (w: seq<HistoryMessage>)
    ensures |w| <= HistoryWindow && w <= h
    ensures |h| <= HistoryWindow ==> w == h
  {
    if |h| <= HistoryWindow then h else h[..HistoryWindow]
  }

  /**
   * The search of findExistingStatusMessage: the most recent candidate among the
   * HistoryWindow most recent messages.
   */
  function ScanForStatus(h: seq<HistoryMessage>): (r: Option<MessageId>)
    ensures r.None? <==> forall j :: 0 <= j < |h| && j < HistoryWindow ==> !IsStatusCandidate(h[j])
    ensures r.Some? ==> exists i :: 0 <= i < |h| && i < HistoryWindow && h[i].id == r.value
                                    && IsStatusCandidate(h[i])
                                    && forall j :: 0 <= j < i ==> !IsStatusCandidate(h[j])
  {
    var w := Window(h);
    match FirstCandidate(w)
    case None => None
    case Some(i) => Some(w[i].id)
  }

  /** The same search as a loop over the history, stopping at the first candidate. */
  method FindExistingStatusMessage(h: seq<HistoryMessage>) returns (r: Option<MessageId>)
    ensures r == ScanForStatus(h)
  {
    var n := if |h| < HistoryWindow then |h| else HistoryWindow;
    var i := 0;
    while i < n
      invariant 0 <= i <= n <= |h| && n <= HistoryWindow
      invariant n == |Window(h)|
      invariant forall j :: 0 <= j < i ==> !IsStatusCandidate(h[j])
    {
      if IsStatusCandidate(h[i]) {
        FirstCandidateIsUnique(Window(h), i);
        return Some(h[i].id);
      }
      i := i + 1;
    }
    return None;
  }

  /** A candidate with no candidate before it is the one FirstCandidate returns. */
  lemma FirstCandidateIsUnique(h: seq<HistoryMessage>, i: nat)
    requires i < |h| && IsStatusCandidate(h[i])
    requires forall j :: 0 <= j < i ==> !IsStatusCandidate(h[j])
    ensures FirstCandidate(h) == Some(i)
  {
  }

  /** The message with id `id` can still be fetched from the channel. */
  predicate Retrievable(v: ChannelView, id: MessageId) {
    exists i :: 0 <= i < |v.history| && v.history[i].id == id
  }

  /** The outcome of looking up a channel's status message. */
  datatype Lookup = Lookup(found: Option<MessageId>, cache: Cache, effects: seq<Effect>)

  /**
   * getStatusMessageIn with findExistingStatusMessage: an Absent entry answers None at
   * once; a Present entry fetches that message and answers it if it still exists; an
   * Unknown entry scans the history and records what the scan found.
   */
  function GetStatusMessageIn(cache: Cache, c: ChannelId, v: ChannelView): (r: Lookup)
    ensures RefOf(r.cache, c) != Unknown
    ensures forall d :: d != c ==> RefOf(r.cache, d) == RefOf(cache, d)
    ensures r.cache.Keys <= cache.Keys + {c}
    ensures forall d :: d in r.cache && d != c ==> r.cache[d] == cache[d]
    ensures c in r.cache && r.cache[c] != Unknown
    ensures RefOf(cache, c) != Unknown ==> r.cache == cache
    ensures RefOf(cache, c) == Absent ==> r.found == None && r.effects == []
    ensures RefOf(cache, c).Present? ==>
              && r.effects == [RetrieveMessage(c, RefOf(cache, c).id)]
              && (r.found.Some? <==> Retrievable(v, RefOf(cache, c).id))
              && (r.found.Some? ==> r.found.value == RefOf(cache, c).id)
    ensures RefOf(cache, c) == Unknown ==>
              && r.effects == [RetrieveHistory(c, HistoryWindow)]
              && r.found == ScanForStatus(v.history)
              && RefOf(r.cache, c) == (if r.found.Some? then Present(r.found.value) else Absent)
    ensures r.found.Some? ==> Retrievable(v, r.found.value)
  {
    match RefOf(cache, c)
    case Absent => Lookup(None, cache, [])
    case Present(id) =>
      Lookup(if Retrievable(v, id) then Some(id) else None, cache, [RetrieveMessage(c, id)])
    case Unknown =>
      var found := ScanForStatus(v.history);
      var entry := if found.Some? then Present(found.value) else Absent;
      Lookup(found, cache[c := entry], [RetrieveHistory(c, HistoryWindow)])
  }
}
